=== FILE: README.md ===
# AutoByte's ByteSlide cursor, modelled in Dafny

AutoByte deserialises binary structures with a `ByteSlide`. A `ByteSlide`
is a forward-only cursor over a read-only byte span. Every read takes bytes
from the front of the span and shortens it.

Structures implement `IByteStructure.Deserialize(ref slide)`:

- It reads the structure's fields from the slide.
- It returns a declared size, where 0 means "no size".
- `slide.GetStructure<T>()` calls it and may then skip a few more bytes.

The span extension `GetStructure<T>()` runs `Deserialize` once on a fresh
slide. Two structures from the repository's tests show how reads compose:

- `LicenseText`: a signed 16-bit length prefix followed by UTF-8 text.
- `MasterBootRecord`: 446 bytes of boot code, four nested `PartitionEntry`
  structures and a 16-bit boot signature.

How the model works:

- The slide is the remaining byte sequence (`Bytes`).
- Every operation takes the current view and returns a
  `Step<T> = Done(value, rest) | Thrown(error, rest)`.
  - `rest` of a `Thrown` is the view when the exception was raised. The C#
    struct is mutated in place, so a partly completed read stays consumed.
  - `SlideError` names the exceptions:
    - `SlideTooShort` is `ByteSlideException`.
    - `RangeOutOfBounds` is the span's own slicing exception.
    - `DivideByZero` and `ArithmeticOverflow` come from C#'s `%`.
- C#'s `%` truncates toward zero. It is modelled as `Int32.TruncatedRem`,
  and `Int32.Remainder` adds the two exceptions.
- The 13 integer getters are one function, `ByteSlide.GetInteger`, indexed
  by an `IntReader` that names the C# method. `ByteSlide.Encode` is its
  inverse.
- A `Deserialize` implementation is a function
  `Bytes -> Step<(T, int32)>`. It returns the structure, the declared size
  and the view it leaves behind.

Files:

- `bytes.dfy`: bytes, the `Step` and `Result` types, and the error names.
- `int32.dfy`: C#'s `int` and its truncating `%`.
- `endian.dfy`: positional values in both byte orders, and two's
  complement.
- `byte_slide.dfy`: the cursor itself.
- `byte_slide_properties.dfy`: lemmas that relate several cursor
  operations.
- `byte_extensions.dfy`: the span extension.
- `license_text.dfy`: the `LicenseText` structure.
- `master_boot_record.dfy`: the `MasterBootRecord` and `PartitionEntry`
  structures.
- `findings.dfy`: where the code departs from its documented intent.

## Model

| member | source | states |
|---|---|---|
| Int32.TruncatedRem | src/AutoByte/ByteSlide.cs:183 | C#'s `a % b`: `a` equals the truncated quotient times `b` plus the result; the result is smaller than `b` in magnitude and has the sign of `a` |
| Int32.Remainder | src/AutoByte/ByteSlide.cs:197 | `size % align` on 32-bit ints throws exactly when `align` is 0 (divide by zero) or when the pair is `int.MinValue % -1` (overflow); otherwise it is the truncated remainder |
| Endian.TwosComplement | src/AutoByte/ByteSlide.cs:55-71 | the signed reading of an n-byte unsigned value lies in the signed n-byte range and differs from it by 0 or 256^n |
| Endian.LittleEndianValueOfBytes | src/AutoByte/ByteSlide.cs:75-91 | the little-endian bytes of a value read back as that value |
| Endian.LittleEndianBytesOfValue | src/AutoByte/ByteSlide.cs:75-91 | every byte run is the little-endian image of its own value |
| Endian.BigEndianIsReversedLittleEndian | src/AutoByte/ByteSlide.cs:114-121 | the big-endian value of a run is the little-endian value of the reversed run |
| ByteSlide.Slide | src/AutoByte/ByteSlide.cs:30-38 | a length in range returns exactly the next `length` bytes, and they followed by the new view make up the old view; a length past the end throws ByteSlideException; a negative length throws the span's range exception; in both failure cases the view is unchanged |
| ByteSlide.Skip | src/AutoByte/ByteSlide.cs:41-44 | succeeds exactly when `0 <= length <= remaining`, dropping `length` bytes and returning a copy of the new slide; otherwise it throws the span's range exception, never ByteSlideException |
| ByteSlide.InterpretEncode | src/AutoByte/ByteSlide.cs:55-131 | decoding the in-memory image of any value of the result type, in the reader's byte order, gives that value back |
| ByteSlide.EncodeInterpret | src/AutoByte/ByteSlide.cs:55-131 | every byte run of the reader's width is the image of the value decoded from it, so the decoding is one-to-one |
| ByteSlide.GetInteger | src/AutoByte/ByteSlide.cs:48-131 | each integer getter moves the view exactly like `Slide(sizeof(T))`, and the value it returns lies in the C# type's range and has exactly the consumed bytes as its image |
| ByteSlide.GetString | src/AutoByte/ByteSlide.cs:135 | consumes like `Slide(length)` and decodes exactly the consumed bytes with the given encoding |
| ByteSlide.GetUtf8String | src/AutoByte/ByteSlide.cs:138 | consumes like `Slide(size)` and decodes exactly those bytes as UTF-8 |
| ByteSlide.GetUnicodeString | src/AutoByte/ByteSlide.cs:141 | consumes like `Slide(size)` and decodes exactly those bytes as UTF-16 |
| ByteSlide.GetByteArray | src/AutoByte/ByteSlide.cs:145 | consumes like `Slide(length)`; the array and the new view together make up the old view |
| ByteSlide.PeekString | src/AutoByte/ByteSlide.cs:212 | never moves the view; succeeds exactly when `0 <= length <= remaining` and then decodes the next `length` bytes; otherwise it throws the range exception |
| ByteSlide.AlignTo | src/AutoByte/ByteSlide.cs:195-201 | `align == 0` throws divide-by-zero and `(int.MinValue, -1)` throws overflow, both before the view moves; a non-positive `size` skips nothing; otherwise it skips `size mod abs(align)` bytes, or throws the range exception if fewer remain |
| ByteSlide.GetByteArrayAlignTo | src/AutoByte/ByteSlide.cs:155-164 | a bad length fails like `Slide`; otherwise the `length` bytes are already consumed when `align == 0` throws; on success it returns exactly those bytes and skips `length mod abs(align)` more, or throws the range exception after the read if fewer remain |
| ByteSlide.GetStructure | src/AutoByte/ByteSlide.cs:168-187 | returns the structure Deserialize populated and propagates its exception; with no declared size it leaves the view where Deserialize did; with a positive size it skips `consumed mod size` more bytes, `consumed` being how much shorter Deserialize left the view, failing with the range exception when they are not there; a Deserialize that leaves a longer view gets no skip |
| ByteSlide.PeekStructure | src/AutoByte/ByteSlide.cs:220-225 | returns the structure and the exception of one Deserialize call and leaves the view exactly where Deserialize left it |
| ByteSlideProperties.GetIntegerOfImage | src/AutoByte/ByteSlide.cs:48-131 | reading any value back from its own image followed by any bytes returns the value and leaves exactly those following bytes |
| ByteSlideProperties.ByteOrderIsReversal | src/AutoByte/ByteSlide.cs:55-131 | the big-endian getter of a type reads the same number as its little-endian twin reads from the reversed bytes |
| ByteSlideProperties.PeekThenGet | src/AutoByte/ByteSlide.cs:135-212 | a successful peek followed by a get decodes the same text and only the get advances; past the end the peek throws the range exception and the get throws ByteSlideException |
| ByteSlideProperties.SkipAgreesWithSlide | src/AutoByte/ByteSlide.cs:30-44 | `Skip` and `Slide` leave the same view for a length in range; past the end `Skip` throws the range exception where `Slide` throws ByteSlideException |
| ByteSlideProperties.SkipThenGet | src/AutoByte.Generators/AutoByteSourceGenerator.cs:114-134 | in the generated `Skip(n).GetX()` chain, the getter reads the field after the `n`-byte gap from the returned copy, while the receiver only moves past the gap and stays before the field |
| ByteSlideProperties.GetByteArrayAlignToIsReadThenAlign | src/AutoByte/ByteSlide.cs:155-201 | `GetByteArrayAlignTo(length, align)` equals `GetByteArray(length)` followed by `AlignTo(length, align)`, including every error case |
| ByteSlideProperties.SlideThenSlide | src/AutoByte/ByteSlide.cs:30-38 | two in-range slides in a row both succeed, their pieces together are the first `a + b` bytes, and the view ends right after them |
| ByteSlideProperties.StructureOnMultipleNoSkip | src/AutoByte/ByteSlide.cs:183-184 | when the bytes Deserialize consumed are a multiple of the declared size, `GetStructure` adds no skip |
| ByteSlideProperties.PeekStructureMatchesGetStructure | src/AutoByte/ByteSlide.cs:168-225 | `PeekStructure` returns the same structure as a successful `GetStructure`, and with no declared size the two calls are identical |
| ByteSlideProperties.BigEndianVector | src/AutoByte/ByteSlide.cs:118 | 14 02 E9 3C read as a big-endian `uint` is 0x1402E93C and consumes all four bytes |
| ByteSlideProperties.LittleEndianVector | src/AutoByte/ByteSlide.cs:78 | the same bytes read as a little-endian `uint` are 0x3CE90214 |
| ByteSlideProperties.SignedVector | src/AutoByte/ByteSlide.cs:55 | FF FF read as a little-endian `short` is -1 |
| ByteSlideProperties.LengthPrefixVector | src/AutoByte.Tests/UnitTest1.cs:25-41 | the prefix 7E 00 of the test buffer read as a little-endian `short` is 126 |
| ByteExtensions.GetStructure | src/AutoByte/ByteExtensions.cs:11-17 | returns the structure exactly when Deserialize succeeds on the whole span; otherwise it returns Deserialize's exception |
| ByteExtensions.AgreesWithSlideGetStructure | src/AutoByte/ByteExtensions.cs:11-17 | whenever the slide's `GetStructure` succeeds on a fresh slide over the span, the extension returns the same structure |
| ByteExtensions.DeclaredSizeIsDiscarded | src/AutoByte/ByteExtensions.cs:11-17 | two Deserialize implementations with the same structure and the same exceptions decode a span identically, whatever sizes they declare and wherever they leave the slide |
| ByteExtensions.SpanDecodeSkipsNothing | src/AutoByte/ByteExtensions.cs:11-17 | on the span 01 02 03 04, a structure that reads 3 bytes and declares 4 makes the slide's `GetStructure` throw the range exception, while the extension succeeds |
| LicenseText.Deserialize | src/AutoByte.Tests/Structures/LicenseText.cs:8-13 | fewer than 2 bytes throws ByteSlideException; otherwise with `n` the signed little-endian prefix it succeeds exactly when `0 <= n <= remaining - 2`, returning `n`, the next `n` bytes as UTF-8, size 0, and the view after them; a long prefix throws ByteSlideException and a negative one the range exception, both after the prefix is consumed |
| LicenseText.GetStructureConsumesPrefixAndText | src/AutoByte.Tests/Structures/LicenseText.cs:8-13 | through `GetStructure` the record consumes exactly its 2-byte prefix and its `Length` bytes of text, with no extra skip |
| LicenseText.LicenseVector | src/AutoByte.Tests/UnitTest1.cs:23-42 | the 128-byte test buffer decodes to Length 126 with the 126 bytes after the prefix as UTF-8 text, and consumes the whole buffer |
| MasterBootRecord.GetEntries | src/AutoByte.Tests/Structures/MasterBootRecord.cs:15-17 | a successful loop returns `count` entries, the first of which is the first read's result; the first read's exception ends the loop and is propagated |
| MasterBootRecord.Deserialize | src/AutoByte.Tests/Structures/MasterBootRecord.cs:11-22 | fewer than 446 bytes throws ByteSlideException; an exception from the entries propagates; fewer than 2 bytes after the entries throws ByteSlideException; otherwise the record holds the first 446 bytes, the entries and the little-endian signature, declares size 0, and leaves the view after the signature |
| LicenseText.Int16Prefix | src/AutoByte.Tests/Structures/LicenseText.cs:10 | the length prefix read takes the next two bytes as a signed little-endian 16-bit number |
| MasterBootRecord.UInt16Prefix | src/AutoByte.Tests/Structures/MasterBootRecord.cs:19 | the boot signature read takes the next two bytes, low byte first, or throws ByteSlideException with fewer than two |
| MasterBootRecord.ByteAt | src/AutoByte.Tests/Structures/PartitionEntry.cs:6 | a `byte` field read takes the next byte, or throws ByteSlideException on an empty view |
| MasterBootRecord.UInt32At | src/AutoByte.Tests/Structures/PartitionEntry.cs:13-14 | a `uint` field read takes the little-endian value of the next four bytes, or throws ByteSlideException with fewer |
| MasterBootRecord.DeserializePartitionEntry | src/AutoByte.Tests/Structures/PartitionEntry.cs:6-14 | succeeds exactly on 16 or more bytes, consuming 16; the fields are byte 0, bytes 1-3, byte 4, bytes 5-7, and the little-endian values of bytes 8-11 and 12-15; size 0; any failure is ByteSlideException |
| MasterBootRecord.StructureOfPartitionEntry | src/AutoByte.Tests/Structures/MasterBootRecord.cs:17 | `GetStructure<PartitionEntry>()` succeeds exactly on 16 or more bytes and then consumes exactly 16; a failure is ByteSlideException |
| MasterBootRecord.EntryValueOfPartitionEntry | src/AutoByte.Tests/Structures/MasterBootRecord.cs:17 | `GetStructure<PartitionEntry>()` returns the entry its Deserialize decodes |
| MasterBootRecord.EntriesStep | src/AutoByte.Tests/Structures/MasterBootRecord.cs:16-17 | one turn of the loop: the first entry, then the remaining entries read from where the first left the view |
| MasterBootRecord.PartitionEntryReadsSixteen | src/AutoByte.Tests/Structures/MasterBootRecord.cs:17 | on every view, reading a partition entry consumes exactly 16 bytes or throws ByteSlideException |
| MasterBootRecord.EntriesOfSixteen | src/AutoByte.Tests/Structures/MasterBootRecord.cs:15-17 | `count` reads of a 16-byte structure succeed exactly on `16 * count` bytes and leave the view after them; a failure is ByteSlideException |
| MasterBootRecord.EntryValuesOfSixteen | src/AutoByte.Tests/Structures/MasterBootRecord.cs:15-17 | entry `i` of the loop is the structure read at offset `16 * i` |
| MasterBootRecord.SixteenByteEntriesFrom446 | src/AutoByte.Tests/Structures/MasterBootRecord.cs:13-17 | the four 16-byte entries after the boot code end at offset 510, entry `i` being the structure at offset `446 + 16 * i` |
| MasterBootRecord.PartitionEntriesFrom446 | src/AutoByte.Tests/Structures/MasterBootRecord.cs:13-17 | on any record buffer, the four partition entries after the boot code end at offset 510, entry `i` being the structure at offset `446 + 16 * i`, and a failure is ByteSlideException |
| MasterBootRecord.RecordOfSixteenByteEntries | src/AutoByte.Tests/Structures/MasterBootRecord.cs:11-22 | with such entries the record succeeds exactly on 512 or more bytes and leaves the view after byte 512; its fields are the first 446 bytes, four entries and the signature in bytes 510-511; a failure is ByteSlideException |
| MasterBootRecord.EntriesOfSixteenByteRecord | src/AutoByte.Tests/Structures/MasterBootRecord.cs:15-17 | entry `i` of such a record is the structure read at offset `446 + 16 * i` |
| MasterBootRecord.RecordOfPartitionEntries | src/AutoByte.Tests/Structures/MasterBootRecord.cs:11-22 | with the declared partition entry layout, the master boot record needs exactly 512 bytes, holds the boot code, the four entries at offsets 446, 462, 478 and 494 and the signature in bytes 510-511, and throws ByteSlideException on anything shorter |
| Findings.StridePad | src/AutoByte/IByteStructure.cs:9 | the pad is smaller than the declared size and brings the consumed count up to a whole number of declared sizes |
| Findings.GetStructureAligned | src/AutoByte/ByteSlide.cs:168-187 | corrected `GetStructure`: after Deserialize the structure occupies a whole number of declared sizes, at least what was consumed and less than one more size |
| Findings.GetStructureAlignedAgrees | src/AutoByte/ByteSlide.cs:183-184 | the corrected and as-written `GetStructure` agree whenever no padding is due |
| Findings.RemainderSkipIsNotStride | src/AutoByte/ByteSlide.cs:183-184 | as written, a 42-byte structure declaring 45 is followed by a 42-byte skip (84 bytes in all); the corrected version skips 3 (45 in all) |
| Findings.AlignToStride | src/AutoByte/ByteSlide.cs:189-201 | corrected `AlignTo`: throws divide-by-zero exactly when `align` is 0; on success `size` plus the skipped bytes is a whole number of `align` bytes, with fewer than `align` skipped |
| Findings.GetByteArrayAlignToStride | src/AutoByte/ByteSlide.cs:155-164 | corrected `GetByteArrayAlignTo`: on success it returns the next `length` bytes, and the bytes read plus the skipped pad are a whole number of `align` bytes, with fewer than `align` skipped; a bad length fails like `Slide` and `align == 0` throws divide-by-zero after the read |
| Findings.AlignToSkipsRemainder | src/AutoByte/ByteSlide.cs:155-201 | as written, `AlignTo(42, 45)` skips 42 bytes where the corrected version skips 3, and `GetByteArrayAlignTo(4, 3)` ends at offset 5 where the corrected version ends at offset 6 |
| Findings.PeekStructureRestoring | src/AutoByte/ByteSlide.cs:214-225 | corrected `PeekStructure`: the same structure or exception, with the view left unchanged |
| Findings.PeekStructureAdvances | src/AutoByte/ByteSlide.cs:214-225 | as written, peeking a one-byte structure on the view 07 moves the view past the byte; the corrected version leaves it in place |
| Findings.SkipThenGetOnCopy | src/AutoByte.Generators/AutoByteSourceGenerator.cs:114-134 | as generated, `slide.Skip(n).GetX()` reads the field after the `n`-byte gap, but the receiver ends after the gap, before the field; a short gap throws the range exception, a short field ByteSlideException |
| Findings.SkipThenGetOnReceiver | src/AutoByte/AutoByteFieldAttribute.cs:6-9 | corrected: skip `n` bytes, then read the field, so the receiver ends after the field; the same value and the same failures as the generated read |
| Findings.SkipOnCopyLeavesField | src/AutoByte/ByteSlide.cs:41-44 | the generated and corrected reads return the same value, and the generated read leaves exactly the field's bytes unconsumed |
| Findings.SkipReadsFieldTwice | src/AutoByte.Generators/AutoByteSourceGenerator.cs:114-134 | on 0A 0B 0C 0D the layout `byte A; [Skip = 1] byte B; byte C;` decodes to (0A, 0C, 0C) as generated, and to (0A, 0C, 0D) when corrected |

## Left out

- Text decoding: `Encoding.GetString` belongs to the platform. A decoded
  string is modelled as the pair of encoding and bytes it was decoded from.
  So the model does not check that the license text spells the expected
  characters.
- The generic `<T>` getter overloads box the number and cast it to an enum
  type. The cast is not modelled; they read the same number as the
  non-generic getters.
- The date readers and the null-terminated and length-prefixed strings
  are not in the source files of this model.
- The source generator and its attributes are not modelled, apart from the
  `Skip(n).GetX()` chain it emits for a field with a gap.
  `PartitionEntry`'s `Deserialize` is written by hand from the fields the
  class declares, in order, little-endian, returning 0. The generator is not
  part of this model and cannot emit its `byte[]` fields.
- The demo program under `src/AutoByte.Demo` and the other test structures are left out.
- Spans longer than `int.MaxValue` bytes are not excluded. Lengths and
  sizes passed to the cursor are `int32`.
- `ByteSlideException` carries a message only. It has no requested or
  remaining counts.
- ByteSlide.Skip: the range exception is modelled as an error value. The
  exception's message is not modelled.
- Where the source's doc comments and its code disagree, the model follows
  the code. The comments are at `src/AutoByte/IByteStructure.cs:9`,
  `src/AutoByte/ByteSlide.cs:189-193` and `src/AutoByte/ByteSlide.cs:214-215`.
  - `Skip`, the alignment skips, a negative length and `PeekString`'s
    overrun raise the span's range exception, not ByteSlideException.
  - A read that has already moved the view before failing stays moved. This
    happens to the `LicenseText` prefix and to the bytes read by
    `GetByteArrayAlignTo`.
  - A structure declaring 45 but consuming 42 is followed by a skip of 42,
    not 3. This is recorded under Findings.

## Findings

| source | as written | input that shows it | evidently intended | confidence | as-written member | corrected member |
|---|---|---|---|---|---|---|
| src/AutoByte/ByteSlide.cs:183-184 | after Deserialize, skips `consumed % size` more bytes | a structure that consumes 42 bytes and declares size 45: the next one starts 84 bytes on | move on to the next multiple of the declared size (3 more bytes, 45 in all), as the size's documented purpose says | not executed | ByteSlide.GetStructure, Findings.RemainderSkipIsNotStride | Findings.GetStructureAligned |
| src/AutoByte/ByteSlide.cs:159-161, 197-200 | `AlignTo` and `GetByteArrayAlignTo` skip `size % align` bytes | `AlignTo(42, 45)` skips 42; `GetByteArrayAlignTo(4, 3)` ends at offset 5 | skip to the next multiple of `align` (3 bytes; offset 6) | not executed | ByteSlide.AlignTo, ByteSlide.GetByteArrayAlignTo, Findings.AlignToSkipsRemainder | Findings.AlignToStride, Findings.GetByteArrayAlignToStride |
| src/AutoByte/ByteSlide.cs:220-225 | `PeekStructure` passes `ref this` to Deserialize, which moves the slide | peeking a one-byte structure on the view 07 leaves an empty view | return the structure without moving the slide, as its comment says | not executed | ByteSlide.PeekStructure, Findings.PeekStructureAdvances | Findings.PeekStructureRestoring |
| src/AutoByte/ByteSlide.cs:41-44 | `Skip` returns a copy of the slide; the generated `slide.Skip(n).GetX()` reads the field from that copy, so the receiver stays before the field | layout `byte A; [Skip = 1] byte B; byte C;` on 0A 0B 0C 0D decodes to (0A, 0C, 0C): C re-reads B's byte | skip `n` bytes before reading the field and end after it, as the attribute's comment says, giving (0A, 0C, 0D) | not executed | ByteSlideProperties.SkipThenGet, Findings.SkipThenGetOnCopy, Findings.SkipReadsFieldTwice | Findings.SkipThenGetOnReceiver |

=== FILE: byte_extensions.dfy ===
/** `ReadOnlySpan<byte>.GetStructure<T>()`: a one-shot decode over a fresh
    slide built on the whole span. */
module ByteExtensions {
  import opened Bytes
  import opened Int32
  import ByteSlide

  /** Calls Deserialize once on a slide that starts at offset 0 of the span
      and returns the populated structure. The declared size is discarded,
      so no remainder skip is applied, and the slide is local: the caller
      gets neither a narrowed span nor a consumed count back. */
  function GetStructure<T>(span: Bytes, deserialize: ByteSlide.Deserializer<T>): (r: Result<T>)
    ensures r.Ok? <==> deserialize(span).Done?
    ensures r.Ok? ==> r.value == deserialize(span).value.0
    ensures r.Err? ==> r.error == deserialize(span).error
  {
    match deserialize(span)
    case Done((structure, _), _) => Ok(structure)
    case Thrown(e, _) => Err(e)
  }

  /** Whenever the slide's own `GetStructure` succeeds on a fresh slide over
      the span, the span extension returns the same structure. */
  lemma AgreesWithSlideGetStructure<T>(span: Bytes, deserialize: ByteSlide.Deserializer<T>)
    ensures ByteSlide.GetStructure(span, deserialize).Done? ==>
              GetStructure(span, deserialize) == Ok(ByteSlide.GetStructure(span, deserialize).value)
  {
  }

  /** Two Deserialize implementations that read the same structure and
      throw the same exceptions decode a span identically, whatever sizes
      they declare and wherever they leave the slide. */
  lemma DeclaredSizeIsDiscarded<T>(span: Bytes, d1: ByteSlide.Deserializer<T>, d2: ByteSlide.Deserializer<T>)
    requires d1(span).Done? <==> d2(span).Done?
    requires d1(span).Done? ==> d1(span).value.0 == d2(span).value.0
    requires d1(span).Thrown? ==> d1(span).error == d2(span).error
    ensures GetStructure(span, d1) == GetStructure(span, d2)
  {
  }

  /** Consumes 3 bytes and declares a size of 4. */
  function Consume3Declare4(t: Bytes): Step<((), int32)> {
    if |t| >= 3 then Done(((), 4), t[3..]) else Thrown(SlideTooShort, t)
  }

  /** On a 4-byte span the slide's `GetStructure` must skip 3 % 4 = 3 more
      bytes where only 1 is left, and throws; the span extension never
      skips and succeeds. */
  lemma SpanDecodeSkipsNothing()
    ensures var span: Bytes := [1, 2, 3, 4];
            && ByteSlide.GetStructure(span, Consume3Declare4) == Thrown(RangeOutOfBounds, [4])
            && GetStructure(span, Consume3Declare4) == Ok(())
  {
    var span: Bytes := [1, 2, 3, 4];
    assert span[3..] == [4];
    assert Consume3Declare4(span) == Done(((), 4), [4]);
    assert TruncatedRem(|span| - 1, 4) == 3;
  }
}

=== FILE: byte_slide.dfy ===
/** The ByteSlide cursor: a forward-only view over a byte buffer. Every read
    shortens the view from the front; `Slide` is the one bounds-checked
    primitive the readers are built on.

    The slide is the remaining `Bytes`; an operation takes the current view
    and returns a `Step` holding its result and the new view. */
module ByteSlide {
  import opened Bytes
  import opened Int32
  import Endian

  // ---------------------------------------------------------------------
  // The primitive

  /** What a read built on `Slide(length)` does to the view `s`: with a
      length in range it consumes exactly `length` bytes; a length past the
      end throws ByteSlideException and a negative one the span's range
      exception, both before the view changes. */
  ghost predicate AdvancesLikeSlide<T>(s: Bytes, length: int, r: Step<T>) {
    && (0 <= length <= |s| ==> r.Done? && r.rest == s[length..])
    && (length > |s| ==> r == Thrown(SlideTooShort, s))
    && (length < 0 ==> r == Thrown(RangeOutOfBounds, s))
  }

  /** Returns the next `length` bytes and moves the view past them. */
  function Slide(s: Bytes, length: int32): (r: Step<Bytes>)
    ensures AdvancesLikeSlide(s, length, r)
    ensures r.Done? ==> |r.value| == length && r.value + r.rest == s
  {
    if length > |s| then Thrown(SlideTooShort, s)
    else if length < 0 then Thrown(RangeOutOfBounds, s)
    else Done(s[..length], s[length..])
  }

  /** Drops `length` bytes without Slide's check, so a bad length surfaces as
      the span's range exception. The C# method also returns a by-value copy
      of the slide in its new state: that copy is `value`, and reads on it
      leave the receiver, `rest`, where it is. */
  function Skip(s: Bytes, length: int32): (r: Step<Bytes>)
    ensures r.Done? <==> 0 <= length <= |s|
    ensures r.Done? ==> r.value == r.rest && s[..length] + r.rest == s
    ensures r.Thrown? ==> r == Thrown(RangeOutOfBounds, s)
  {
    if 0 <= length <= |s| then Done(s[length..], s[length..])
    else Thrown(RangeOutOfBounds, s)
  }

  // ---------------------------------------------------------------------
  // Fixed-width integers

  /** The fixed-width integer getters of a slide, one per C# method. The
      generic `<T>` overloads cast the same number to an enum type and are
      read by the same reader. */
  datatype IntReader =
    | Byte
    | Int16LittleEndian | Int32LittleEndian | Int64LittleEndian
    | UInt16LittleEndian | UInt32LittleEndian | UInt64LittleEndian
    | Int16BigEndian | Int32BigEndian | Int64BigEndian
    | UInt16BigEndian | UInt32BigEndian | UInt64BigEndian
  {
    /** `sizeof` of the C# result type: the bytes one read consumes. */
    function Width(): nat {
      match this
      case Byte => 1
      case Int16LittleEndian | UInt16LittleEndian | Int16BigEndian | UInt16BigEndian => 2
      case Int32LittleEndian | UInt32LittleEndian | Int32BigEndian | UInt32BigEndian => 4
      case Int64LittleEndian | UInt64LittleEndian | Int64BigEndian | UInt64BigEndian => 8
    }

    predicate IsSigned() {
      match this
      case Int16LittleEndian | Int32LittleEndian | Int64LittleEndian => true
      case Int16BigEndian | Int32BigEndian | Int64BigEndian => true
      case _ => false
    }

    predicate IsBigEndian() {
      match this
      case Int16BigEndian | Int32BigEndian | Int64BigEndian => true
      case UInt16BigEndian | UInt32BigEndian | UInt64BigEndian => true
      case _ => false
    }

    /** The values the C# result type can hold. */
    predicate InRange(v: int) {
      if IsSigned() then -(Endian.Pow256(Width()) / 2) <= v < Endian.Pow256(Width()) / 2
      else 0 <= v < Endian.Pow256(Width())
    }
  }

  /** The number `BinaryPrimitives.Read*` returns for exactly `Width()`
      bytes: their positional value in the reader's byte order, read as two's
      complement when the result type is signed. */
  function Interpret(bs: Bytes, k: IntReader): (v: int)
    requires |bs| == k.Width()
    ensures k.InRange(v)
  {
    var u := if k.IsBigEndian() then Endian.BigEndianValue(bs) else Endian.LittleEndianValue(bs);
    if k.IsSigned() then Endian.TwosComplement(u, k.Width()) else u
  }

  /** The in-memory image of a value of the reader's result type: the
      inverse of `Interpret`. */
  function Encode(v: int, k: IntReader): (bs: Bytes)
    requires k.InRange(v)
    ensures |bs| == k.Width()
  {
    var u := if v < 0 then v + Endian.Pow256(k.Width()) else v;
    var le := Endian.LittleEndianBytes(u, k.Width());
    if k.IsBigEndian() then Endian.Reverse(le) else le
  }

  /** Adding `256^n` to a negative value of the result type and reading the
      sum back as the result type restores the value. */
  lemma UnsignedRoundTrip(v: int, k: IntReader)
    requires k.InRange(v)
    ensures var u := if v < 0 then v + Endian.Pow256(k.Width()) else v;
            && 0 <= u < Endian.Pow256(k.Width())
            && (if k.IsSigned() then Endian.TwosComplement(u, k.Width()) else u) == v
  {
    var n := k.Width();
    var half := 128 * Endian.Pow256(n - 1);
    assert Endian.Pow256(n) == 2 * half;
  }

  /** The positional value of the image of `v`, in the reader's byte order,
      is `v` made unsigned. */
  lemma PositionalValueOfImage(v: int, k: IntReader)
    requires k.InRange(v)
    ensures var u := if v < 0 then v + Endian.Pow256(k.Width()) else v;
            (if k.IsBigEndian() then Endian.BigEndianValue(Encode(v, k)) else Endian.LittleEndianValue(Encode(v, k))) == u
  {
    var n := k.Width();
    var u := if v < 0 then v + Endian.Pow256(n) else v;
    UnsignedRoundTrip(v, k);
    var le := Endian.LittleEndianBytes(u, n);
    Endian.LittleEndianValueOfBytes(u, n);
    if k.IsBigEndian() {
      assert Encode(v, k) == Endian.Reverse(le);
      Endian.BigEndianIsReversedLittleEndian(Endian.Reverse(le));
      Endian.ReverseReverse(le);
      assert Endian.BigEndianValue(Endian.Reverse(le)) == Endian.LittleEndianValue(le);
    } else {
      assert Encode(v, k) == le;
    }
  }

  /** Decoding the image of a value gives the value back. */
  lemma InterpretEncode(v: int, k: IntReader)
    requires k.InRange(v)
    ensures Interpret(Encode(v, k), k) == v
  {
    UnsignedRoundTrip(v, k);
    PositionalValueOfImage(v, k);
  }

  /** Reading an unsigned value as the result type and adding `256^n` back
      to a negative result restores it. */
  lemma SignRoundTrip(u: nat, k: IntReader)
    requires u < Endian.Pow256(k.Width())
    ensures var v := if k.IsSigned() then Endian.TwosComplement(u, k.Width()) else u;
            (if v < 0 then v + Endian.Pow256(k.Width()) else v) == u
  {
  }

  /** Every byte run of the right width is the image of the value decoded
      from it, so no two runs decode to the same value. */
  lemma EncodeInterpret(bs: Bytes, k: IntReader)
    requires |bs| == k.Width()
    ensures Encode(Interpret(bs, k), k) == bs
  {
    var n := k.Width();
    var u := if k.IsBigEndian() then Endian.BigEndianValue(bs) else Endian.LittleEndianValue(bs);
    SignRoundTrip(u, k);
    var le := Endian.LittleEndianBytes(u, n);
    assert Encode(Interpret(bs, k), k) == if k.IsBigEndian() then Endian.Reverse(le) else le;
    if k.IsBigEndian() {
      Endian.BigEndianIsReversedLittleEndian(bs);
      Endian.LittleEndianBytesOfValue(Endian.Reverse(bs));
      assert le == Endian.Reverse(bs);
      Endian.ReverseReverse(bs);
    } else {
      Endian.LittleEndianBytesOfValue(bs);
    }
  }

  /** `GetByte`, `GetInt16LittleEndian`, ..., `GetUInt64BigEndian`: consumes
      the reader's width through Slide and returns the value whose image in
      the reader's type and byte order is exactly the bytes consumed. */
  function GetInteger(s: Bytes, k: IntReader): (r: Step<int>)
    ensures AdvancesLikeSlide(s, k.Width(), r)
    ensures r.Done? ==> k.InRange(r.value) && Encode(r.value, k) == s[..k.Width()]
  {
    var (bytes, rest) :- Slide(s, k.Width() as int32);
    EncodeInterpret(bytes, k);
    Done(Interpret(bytes, k), rest)
  }

  // ---------------------------------------------------------------------
  // Byte runs and text

  /** The character encodings the slide's text readers are given. */
  datatype Encoding = Utf8 | Unicode | OtherEncoding(name: string)

  /** The string `encoding.GetString(bytes)` returns. Decoding is done by the
      platform's encoding classes and is not modelled: equal encodings and
      equal bytes give equal strings. */
  datatype Text = Decoded(encoding: Encoding, bytes: Bytes)

  /** `GetString(encoding, length)`: decodes exactly the next `length` bytes. */
  function GetString(s: Bytes, encoding: Encoding, length: int32): (r: Step<Text>)
    ensures AdvancesLikeSlide(s, length, r)
    ensures r.Done? ==> r.value == Decoded(encoding, s[..length])
  {
    var (bytes, rest) :- Slide(s, length);
    Done(Decoded(encoding, bytes), rest)
  }

  /** `GetUtf8String(size)`: the next `size` bytes as UTF-8. */
  function GetUtf8String(s: Bytes, size: int32): (r: Step<Text>)
    ensures AdvancesLikeSlide(s, size, r)
    ensures r.Done? ==> r.value == Decoded(Utf8, s[..size])
  {
    var (bytes, rest) :- Slide(s, size);
    Done(Decoded(Utf8, bytes), rest)
  }

  /** `GetUnicodeString(size)`: the next `size` bytes as UTF-16 (little-endian). */
  function GetUnicodeString(s: Bytes, size: int32): (r: Step<Text>)
    ensures AdvancesLikeSlide(s, size, r)
    ensures r.Done? ==> r.value == Decoded(Unicode, s[..size])
  {
    var (bytes, rest) :- Slide(s, size);
    Done(Decoded(Unicode, bytes), rest)
  }

  /** `GetByteArray(length)`: a copy of exactly the next `length` bytes. */
  function GetByteArray(s: Bytes, length: int32): (r: Step<Bytes>)
    ensures AdvancesLikeSlide(s, length, r)
    ensures r.Done? ==> r.value + r.rest == s
  {
    var (bytes, rest) :- Slide(s, length);
    Done(bytes, rest)
  }

  /** `PeekString(encoding, length)`: decodes the next `length` bytes without
      moving the view. It slices the span directly, so a length out of range
      throws the range exception, never ByteSlideException. */
  function PeekString(s: Bytes, encoding: Encoding, length: int32): (r: Step<Text>)
    ensures r.rest == s
    ensures r.Done? <==> 0 <= length <= |s|
    ensures r.Done? ==> r.value == Decoded(encoding, s[..length])
    ensures r.Thrown? ==> r.error == RangeOutOfBounds
  {
    if 0 <= length <= |s| then Done(Decoded(encoding, s[..length]), s)
    else Thrown(RangeOutOfBounds, s)
  }

  // ---------------------------------------------------------------------
  // Pointer adjustment

  /** `AlignTo(size, align)`: skips `size % align` further bytes (C#'s
      truncating remainder) when that remainder is positive. It skips by
      slicing the span, so a skip past the end throws the range exception;
      the remainder itself can throw before anything moves. */
  function AlignTo(s: Bytes, size: int32, align: int32): (r: Step<()>)
    ensures align == 0 ==> r == Thrown(DivideByZero, s)
    ensures size == MinValue && align == -1 ==> r == Thrown(ArithmeticOverflow, s)
    ensures size <= 0 && align != 0 && !(size == MinValue && align == -1) ==> r == Done((), s)
    ensures size > 0 && align != 0 ==>
              var pad := size % Abs(align);
              && (r.Done? <==> pad <= |s|)
              && (r.Done? ==> r.rest == s[pad..])
              && (r.Thrown? ==> r == Thrown(RangeOutOfBounds, s))
  {
    match Remainder(size, align)
    case Err(e) => Thrown(e, s)
    case Ok(alignment) =>
      if alignment > 0 then
        if alignment <= |s| then Done((), s[alignment..]) else Thrown(RangeOutOfBounds, s)
      else
        Done((), s)
  }

  /** `GetByteArrayAlignTo(length, align)`: reads `length` bytes, then skips
      `length % align` more. The read has already moved the view when the
      remainder or the extra skip throws. A length that is a multiple of
      `align` skips nothing. */
  function GetByteArrayAlignTo(s: Bytes, length: int32, align: int32): (r: Step<Bytes>)
    ensures length < 0 || length > |s| ==> AdvancesLikeSlide(s, length, r)
    ensures 0 <= length <= |s| && align == 0 ==> r == Thrown(DivideByZero, s[length..])
    ensures 0 <= length <= |s| && align != 0 ==>
              var pad := length % Abs(align);
              && (r.Done? <==> length + pad <= |s|)
              && (r.Done? ==> r.value == s[..length] && r.rest == s[length + pad..])
              && (r.Thrown? ==> r == Thrown(RangeOutOfBounds, s[length..]))
  {
    var (bytes, rest) :- Slide(s, length);
    match Remainder(length, align)
    case Err(e) => Thrown(e, rest)
    case Ok(alignment) =>
      if alignment > 0 then
        if alignment <= |rest| then Done(bytes, rest[alignment..]) else Thrown(RangeOutOfBounds, rest)
      else
        Done(bytes, rest)
  }

  // ---------------------------------------------------------------------
  // Structure composition

  /** `IByteStructure.Deserialize(ref slide)` of some structure type: reads
      the structure's fields from the slide and returns the populated
      structure with the size it declares (0 for "no size"). It may leave
      the slide anywhere, or throw. */
  type Deserializer<!T> = Bytes -> Step<(T, int32)>

  /** `GetStructure<T>()`: calls Deserialize once and returns the structure
      it populated. When the declared size is positive it then skips
      `consumed % size` more bytes, where `consumed` is how much Deserialize
      shortened the view; that is the remainder itself, not the distance to
      the next multiple of the size. Only lengths are compared, so a
      Deserialize that leaves a longer view gives a non-positive remainder
      and no skip. */
  function GetStructure<T>(s: Bytes, deserialize: Deserializer<T>): (r: Step<T>)
    ensures deserialize(s).Thrown? ==> r == Thrown(deserialize(s).error, deserialize(s).rest)
    ensures r.Done? ==> deserialize(s).Done? && r.value == deserialize(s).value.0
    ensures deserialize(s).Done? && deserialize(s).value.1 <= 0 ==>
              r == Done(deserialize(s).value.0, deserialize(s).rest)
    ensures deserialize(s).Done? && deserialize(s).value.1 > 0 && |deserialize(s).rest| <= |s| ==>
              var after := deserialize(s).rest;
              var consumed := |s| - |after|;
              var more := consumed % deserialize(s).value.1;
              && (r.Done? <==> more <= |after|)
              && (r.Done? ==> IsSuffix(r.rest, after) && |s| - |r.rest| == consumed + more)
              && (r.Thrown? ==> r == Thrown(RangeOutOfBounds, after))
    ensures deserialize(s).Done? && |deserialize(s).rest| > |s| ==>
              r == Done(deserialize(s).value.0, deserialize(s).rest)
  {
    match deserialize(s)
    case Thrown(e, at) => Thrown(e, at)
    case Done((structure, size), after) =>
      var start := |s|;
      if size > 0 then
        var more := TruncatedRem(start - |after|, size);
        if more > 0 then
          if more <= |after| then Done(structure, after[more..]) else Thrown(RangeOutOfBounds, after)
        else
          Done(structure, after)
      else
        Done(structure, after)
  }

  /** `PeekStructure<T>()`: calls Deserialize once and returns the structure,
      leaving the slide wherever Deserialize moved it and never applying the
      declared-size skip. */
  function PeekStructure<T>(s: Bytes, deserialize: Deserializer<T>): (r: Step<T>)
    ensures r.rest == deserialize(s).rest
    ensures r.Done? <==> deserialize(s).Done?
    ensures r.Done? ==> r.value == deserialize(s).value.0
    ensures r.Thrown? ==> r.error == deserialize(s).error
  {
    match deserialize(s)
    case Done((structure, _), after) => Done(structure, after)
    case Thrown(e, at) => Thrown(e, at)
  }
}

=== FILE: byte_slide_properties.dfy ===
/** Properties that relate several ByteSlide operations to each other. */
module ByteSlideProperties {
  import opened Bytes
  import opened Int32
  import opened ByteSlide

  /** Reading an integer back from its own image: the getter returns the
      value and leaves exactly the bytes that followed the image. */
  lemma GetIntegerOfImage(v: int, k: IntReader, tail: Bytes)
    requires k.InRange(v)
    ensures GetInteger(Encode(v, k) + tail, k) == Done(v, tail)
  {
    var image := Encode(v, k);
    assert (image + tail)[..k.Width()] == image;
    assert (image + tail)[k.Width()..] == tail;
    InterpretEncode(v, k);
  }

  /** The big-endian and little-endian getters of the same type read the
      same bytes in opposite order. */
  lemma ByteOrderIsReversal(bs: Bytes, little: IntReader, big: IntReader)
    requires little.Width() == big.Width() == |bs|
    requires little.IsSigned() == big.IsSigned()
    requires !little.IsBigEndian() && big.IsBigEndian()
    ensures Interpret(bs, big) == Interpret(Endian.Reverse(bs), little)
  {
    Endian.BigEndianIsReversedLittleEndian(bs);
  }

  /** `PeekString` leaves the view alone, so the `GetString` that follows
      decodes the same bytes, and only the second call advances. */
  lemma PeekThenGet(s: Bytes, encoding: Encoding, length: int32)
    ensures PeekString(s, encoding, length).Done? ==>
              GetString(PeekString(s, encoding, length).rest, encoding, length)
                == Done(PeekString(s, encoding, length).value, s[length..])
    ensures length > |s| ==>
              PeekString(s, encoding, length).error == RangeOutOfBounds
              && GetString(s, encoding, length).error == SlideTooShort
  {
  }

  /** `Skip` and `Slide` leave the same view when the length is in range;
      past the end `Skip` throws the range exception where `Slide` throws
      ByteSlideException. */
  lemma SkipAgreesWithSlide(s: Bytes, length: int32)
    ensures 0 <= length <= |s| ==> Skip(s, length).rest == Slide(s, length).rest
    ensures length > |s| ==>
              Skip(s, length) == Thrown(RangeOutOfBounds, s)
              && Slide(s, length) == Thrown(SlideTooShort, s)
  {
  }

  /** `Skip(n)` returns a copy of the slide, so a getter chained on it, as in
      `slide.Skip(n).GetByte()`, reads the field after the gap while the
      receiver stays just after the gap, before the field. */
  lemma SkipThenGet(s: Bytes, n: int32, k: IntReader)
    requires 0 <= n && n + k.Width() <= |s|
    ensures Skip(s, n).rest == s[n..]
    ensures GetInteger(Skip(s, n).value, k).Done?
    ensures Encode(GetInteger(Skip(s, n).value, k).value, k) == s[n..n + k.Width()]
    ensures GetInteger(Skip(s, n).value, k).rest == s[n + k.Width()..]
  {
    var copy := Skip(s, n).value;
    assert copy == s[n..];
    assert copy[..k.Width()] == s[n..n + k.Width()];
    assert copy[k.Width()..] == s[n + k.Width()..];
  }

  /** `GetByteArrayAlignTo(length, align)` is `GetByteArray(length)` followed
      by `AlignTo(length, align)`. */
  lemma GetByteArrayAlignToIsReadThenAlign(s: Bytes, length: int32, align: int32)
    ensures GetByteArrayAlignTo(s, length, align) ==
              match GetByteArray(s, length)
              case Thrown(e, at) => Thrown(e, at)
              case Done(bytes, rest) =>
                match AlignTo(rest, length, align)
                case Thrown(e, at) => Thrown(e, at)
                case Done(_, aligned) => Done(bytes, aligned)
  {
  }

  /** Two reads in a row consume the concatenation of what each read takes:
      the slide only ever moves forward from the front. */
  lemma SlideThenSlide(s: Bytes, a: int32, b: int32)
    requires 0 <= a && 0 <= b && a + b <= |s|
    ensures Slide(s, a).Done? && Slide(Slide(s, a).rest, b).Done?
    ensures Slide(s, a).value + Slide(Slide(s, a).rest, b).value == s[..a + b]
    ensures Slide(Slide(s, a).rest, b).rest == s[a + b..]
  {
    var first := Slide(s, a);
    assert first.rest == s[a..];
    assert s[a..][b..] == s[a + b..];
    assert s[..a] + s[a..][..b] == s[..a + b];
  }

  /** A structure whose fields fill a whole number of its declared size is
      followed by no extra skip. */
  lemma StructureOnMultipleNoSkip<T>(s: Bytes, deserialize: Deserializer<T>)
    requires deserialize(s).Done? && IsSuffix(deserialize(s).rest, s)
    requires deserialize(s).value.1 > 0
    requires (|s| - |deserialize(s).rest|) % deserialize(s).value.1 == 0
    ensures GetStructure(s, deserialize) == Done(deserialize(s).value.0, deserialize(s).rest)
  {
  }

  /** `PeekStructure` and `GetStructure` return the same structure; with no
      declared size they also leave the same view. */
  lemma PeekStructureMatchesGetStructure<T>(s: Bytes, deserialize: Deserializer<T>)
    ensures GetStructure(s, deserialize).Done? ==>
              PeekStructure(s, deserialize).Done?
              && PeekStructure(s, deserialize).value == GetStructure(s, deserialize).value
    ensures deserialize(s).Done? && deserialize(s).value.1 <= 0 ==>
              PeekStructure(s, deserialize) == GetStructure(s, deserialize)
  {
  }

  /** The bytes 14 02 E9 3C read as an unsigned 32-bit big-endian value. */
  lemma BigEndianVector()
    ensures GetInteger([0x14, 0x02, 0xE9, 0x3C], UInt32BigEndian) == Done(0x1402E93C, [])
  {
    var v: Bytes := [0x14, 0x02, 0xE9, 0x3C];
    assert v[..3] == [0x14, 0x02, 0xE9];
    assert v[..3][..2] == [0x14, 0x02];
    assert v[..3][..2][..1] == [0x14];
    assert v[..3][..2][..1][..0] == [];
    assert Endian.BigEndianValue([0x14]) == 0x14;
    assert Endian.BigEndianValue([0x14, 0x02]) == 0x1402;
    assert Endian.BigEndianValue([0x14, 0x02, 0xE9]) == 0x1402E9;
    assert Endian.BigEndianValue(v) == 0x1402E93C;
    assert v[..4] == v && v[4..] == [];
  }

  /** The same bytes read as an unsigned 32-bit little-endian value. */
  lemma LittleEndianVector()
    ensures GetInteger([0x14, 0x02, 0xE9, 0x3C], UInt32LittleEndian) == Done(0x3CE90214, [])
  {
    var v: Bytes := [0x14, 0x02, 0xE9, 0x3C];
    assert v[1..] == [0x02, 0xE9, 0x3C];
    assert v[1..][1..] == [0xE9, 0x3C];
    assert v[1..][1..][1..] == [0x3C];
    assert v[1..][1..][1..][1..] == [];
    assert Endian.LittleEndianValue([0x3C]) == 0x3C;
    assert Endian.LittleEndianValue([0xE9, 0x3C]) == 0x3CE9;
    assert Endian.LittleEndianValue([0x02, 0xE9, 0x3C]) == 0x3CE902;
    assert Endian.LittleEndianValue(v) == 0x3CE90214;
    assert v[..4] == v && v[4..] == [];
  }

  /** FF FF read as a signed 16-bit value is -1. */
  lemma SignedVector()
    ensures GetInteger([0xFF, 0xFF], Int16LittleEndian) == Done(-1, [])
  {
    var m: Bytes := [0xFF, 0xFF];
    assert m[1..][1..] == [];
    assert m[..2] == m && m[2..] == [];
  }

  /** 7E 00 read as a signed 16-bit little-endian value is 126. */
  lemma LengthPrefixVector()
    ensures GetInteger([0x7E, 0x00], Int16LittleEndian) == Done(126, [])
  {
    var p: Bytes := [0x7E, 0x00];
    assert p[1..][1..] == [];
    assert p[..2] == p && p[2..] == [];
  }
}

=== FILE: bytes.dfy ===
/** Shared vocabulary of the model: bytes, the view a ByteSlide holds, and the
    outcome of every read on it.

    A ByteSlide is a forward-only view over a byte buffer; the model keeps only
    the part of the buffer that has not been consumed yet. A read either
    succeeds with a value and the shortened view, or throws; because the C#
    slide is passed by reference and mutated in place, a throw also carries
    the view as it stood when the exception left the call. */
module Bytes {

  type byte = x: int | 0 <= x < 256

  /** The remaining, not yet consumed suffix of the buffer a slide looks at. */
  type Bytes = seq<byte>

  /** `t` is what is left of `s` after dropping some bytes from its front. */
  predicate IsSuffix(t: Bytes, s: Bytes) {
    |t| <= |s| && s[|s| - |t|..] == t
  }

  /** The exceptions a slide operation can raise. */
  datatype SlideError =
      /** ByteSlideException("Byte slide is too short.") from the bounds check of Slide. */
    | SlideTooShort
      /** ArgumentOutOfRangeException from slicing the underlying span directly. */
    | RangeOutOfBounds
      /** DivideByZeroException from `x % 0`. */
    | DivideByZero
      /** OverflowException from `int.MinValue % -1`. */
    | ArithmeticOverflow

  /** The outcome of an operation on a slide: the value it returned and the
      view it left behind, or the exception it threw and the view at that
      moment. Usable with `:-`, which stops at the first exception. */
  datatype Step<+T> =
    | Done(value: T, rest: Bytes)
    | Thrown(error: SlideError, rest: Bytes)
  {
    predicate IsFailure() {
      Thrown?
    }

    function PropagateFailure<U>(): Step<U>
      requires Thrown?
    {
      Thrown(error, rest)
    }

    function Extract(): (T, Bytes)
      requires Done?
    {
      (value, rest)
    }
  }

  /** The outcome of a one-shot decode whose slide is not returned to the caller. */
  datatype Result<+T> = Ok(value: T) | Err(error: SlideError)
}

=== FILE: endian.dfy ===
/** Positional value of a byte run in either byte order, its inverse, and
    two's complement: the arithmetic behind BinaryPrimitives.Read*. */
module Endian {
  import opened Bytes

  /** 256 to the power n: one more than the largest value n bytes hold. */
  function Pow256(n: nat): (p: nat)
    ensures p > 0
  {
    if n == 0 then 1 else 256 * Pow256(n - 1)
  }

  /** Unsigned value of a byte run stored least significant byte first. */
  function LittleEndianValue(bs: Bytes): (v: nat)
    ensures v < Pow256(|bs|)
  {
    if |bs| == 0 then 0 else bs[0] + 256 * LittleEndianValue(bs[1..])
  }

  /** Unsigned value of a byte run stored most significant byte first. */
  function BigEndianValue(bs: Bytes): (v: nat)
    ensures v < Pow256(|bs|)
  {
    if |bs| == 0 then 0 else 256 * BigEndianValue(bs[..|bs| - 1]) + bs[|bs| - 1]
  }

  function Reverse(bs: Bytes): (r: Bytes)
    ensures |r| == |bs|
    ensures forall i :: 0 <= i < |bs| ==> r[i] == bs[|bs| - 1 - i]
  {
    if |bs| == 0 then [] else [bs[|bs| - 1]] + Reverse(bs[..|bs| - 1])
  }

  lemma ReverseReverse(bs: Bytes)
    ensures Reverse(Reverse(bs)) == bs
  {
  }

  /** The n bytes, least significant first, whose value is v. */
  function LittleEndianBytes(v: nat, n: nat): (bs: Bytes)
    requires v < Pow256(n)
    ensures |bs| == n
  {
    if n == 0 then [] else [v % 256] + LittleEndianBytes(v / 256, n - 1)
  }

  /** Reading back the bytes written for v gives v. */
  lemma {:induction false} LittleEndianValueOfBytes(v: nat, n: nat)
    requires v < Pow256(n)
    ensures LittleEndianValue(LittleEndianBytes(v, n)) == v
  {
    if n > 0 {
      var bs := LittleEndianBytes(v, n);
      assert bs[1..] == LittleEndianBytes(v / 256, n - 1);
      LittleEndianValueOfBytes(v / 256, n - 1);
    }
  }

  /** Writing the value of a byte run gives back the same run. */
  lemma {:induction false} LittleEndianBytesOfValue(bs: Bytes)
    ensures LittleEndianBytes(LittleEndianValue(bs), |bs|) == bs
  {
    if |bs| > 0 {
      var v := LittleEndianValue(bs);
      assert v % 256 == bs[0];
      assert v / 256 == LittleEndianValue(bs[1..]);
      LittleEndianBytesOfValue(bs[1..]);
    }
  }

  /** Big-endian order is little-endian order read back to front. */
  lemma {:induction false} BigEndianIsReversedLittleEndian(bs: Bytes)
    ensures BigEndianValue(bs) == LittleEndianValue(Reverse(bs))
  {
    if |bs| > 0 {
      var init := bs[..|bs| - 1];
      var r := Reverse(bs);
      assert r[1..] == Reverse(init);
      BigEndianIsReversedLittleEndian(init);
    }
  }

  /** The signed reading of an n-byte unsigned value u: the one value in the
      signed range of n bytes that is congruent to u modulo 256^n. */
  function TwosComplement(u: nat, n: nat): (v: int)
    requires 0 < n && u < Pow256(n)
    ensures -(Pow256(n) / 2) <= v < Pow256(n) / 2
    ensures v == u || v == u - Pow256(n)
  {
    var half := 128 * Pow256(n - 1);
    assert Pow256(n) == 2 * half;
    if u < half then u else u - Pow256(n)
  }
}

=== FILE: findings.dfy ===
/** Where the slide's arithmetic departs from what its names and comments
    promise. Each as-written operation lives in ByteSlide; this module gives
    the behaviour the comments describe, proves the intended property of it,
    and exhibits an input on which the two differ. */
module Findings {
  import opened Bytes
  import opened Int32
  import opened ByteSlide

  // ---------------------------------------------------------------------
  // Stride padding

  /** Whole strides of `size` bytes needed to cover `consumed` bytes. */
  function Strides(consumed: int, size: int): int
    requires size > 0
  {
    if consumed % size == 0 then consumed / size else consumed / size + 1
  }

  /** Bytes that bring `consumed` up to the next multiple of `size`. */
  function StridePad(consumed: int, size: int): (pad: nat)
    requires size > 0
    ensures pad < size
    ensures consumed + pad == Strides(consumed, size) * size
  {
    if consumed % size == 0 then 0 else size - consumed % size
  }

  /** `GetStructure` as its interface comment describes it: after
      Deserialize, move the slide on so that the structure occupies a whole
      number of its declared size. */
  function GetStructureAligned<T>(s: Bytes, deserialize: Deserializer<T>): (r: Step<T>)
    ensures deserialize(s).Thrown? ==> r == Thrown(deserialize(s).error, deserialize(s).rest)
    ensures r.Done? ==> deserialize(s).Done? && r.value == deserialize(s).value.0
    ensures deserialize(s).Done? && deserialize(s).value.1 > 0 && IsSuffix(deserialize(s).rest, s) ==>
              var size := deserialize(s).value.1;
              var consumed := |s| - |deserialize(s).rest|;
              r.Done? ==>
                var total := |s| - |r.rest|;
                && IsSuffix(r.rest, deserialize(s).rest)
                && total == Strides(consumed, size) * size
                && consumed <= total < consumed + size
  {
    match deserialize(s)
    case Thrown(e, at) => Thrown(e, at)
    case Done((structure, size), after) =>
      if size > 0 then
        var pad := StridePad(|s| - |after|, size);
        if pad <= |after| then Done(structure, after[pad..]) else Thrown(RangeOutOfBounds, after)
      else
        Done(structure, after)
  }

  /** The two agree whenever no padding is due: no declared size, or a
      consumption that already fills whole strides. LicenseText,
      MasterBootRecord and the partition entry declare no size, so their
      readers behave the same under either. */
  lemma GetStructureAlignedAgrees<T>(s: Bytes, deserialize: Deserializer<T>)
    requires deserialize(s).Done? ==>
               || deserialize(s).value.1 <= 0
               || (IsSuffix(deserialize(s).rest, s)
                   && (|s| - |deserialize(s).rest|) % deserialize(s).value.1 == 0)
    ensures GetStructureAligned(s, deserialize) == GetStructure(s, deserialize)
  {
  }

  /** Consumes 42 bytes and declares a size of 45. */
  function Consume42Declare45(t: Bytes): Step<((), int32)> {
    if |t| >= 42 then Done(((), 45), t[42..]) else Thrown(SlideTooShort, t)
  }

  /** With 42 bytes consumed and a declared size of 45, `GetStructure` skips
      42 more bytes (84 in all), where stride alignment skips 3 (45 in all). */
  lemma RemainderSkipIsNotStride()
    ensures var s: Bytes := seq(90, i => 0);
            && GetStructure(s, Consume42Declare45) == Done((), s[84..])
            && GetStructureAligned(s, Consume42Declare45) == Done((), s[45..])
  {
    var s: Bytes := seq(90, i => 0);
    assert Consume42Declare45(s) == Done(((), 45), s[42..]);
    assert TruncatedRem(42, 45) == 42;
    assert s[42..][42..] == s[84..];
    assert s[42..][3..] == s[45..];
  }

  /** `AlignTo(size, align)` as its comment describes it: skip so that
      `size` plus the skipped bytes is a whole number of `align` bytes. */
  function AlignToStride(s: Bytes, size: int32, align: int32): (r: Step<()>)
    ensures align == 0 <==> r == Thrown(DivideByZero, s)
    ensures r.Done? ==>
              var skipped := |s| - |r.rest|;
              && IsSuffix(r.rest, s)
              && size + skipped == Strides(size, Abs(align)) * Abs(align)
              && 0 <= skipped < Abs(align)
  {
    if align == 0 then Thrown(DivideByZero, s)
    else
      var pad := StridePad(size, Abs(align));
      if pad <= |s| then Done((), s[pad..]) else Thrown(RangeOutOfBounds, s)
  }

  /** `GetByteArrayAlignTo(length, align)` as intended: read `length` bytes,
      then pad so that the bytes read plus the pad are a whole number of
      `align` bytes. */
  function GetByteArrayAlignToStride(s: Bytes, length: int32, align: int32): (r: Step<Bytes>)
    ensures length < 0 || length > |s| ==> AdvancesLikeSlide(s, length, r)
    ensures 0 <= length <= |s| && align == 0 ==> r == Thrown(DivideByZero, s[length..])
    ensures r.Done? ==>
              var skipped := |s| - length - |r.rest|;
              && 0 <= length <= |s| && align != 0
              && r.value == s[..length]
              && IsSuffix(r.rest, s[length..])
              && length + skipped == Strides(length, Abs(align)) * Abs(align)
              && 0 <= skipped < Abs(align)
  {
    var (bytes, rest) :- GetByteArray(s, length);
    var (_, aligned) :- AlignToStride(rest, length, align);
    Done(bytes, aligned)
  }

  /** After a 42-byte structure, aligning to 45 skips 42 bytes as written and
      3 bytes as intended. `GetByteArrayAlignTo` uses the same formula: a
      4-byte read aligned to 3 ends at offset 5, not 6. */
  lemma AlignToSkipsRemainder()
    ensures var s: Bytes := seq(50, i => 0);
            && AlignTo(s, 42, 45) == Done((), s[42..])
            && AlignToStride(s, 42, 45) == Done((), s[3..])
            && GetByteArrayAlignTo(s, 4, 3) == Done(s[..4], s[5..])
            && GetByteArrayAlignToStride(s, 4, 3) == Done(s[..4], s[6..])
  {
    var s: Bytes := seq(50, i => 0);
    assert TruncatedRem(42, 45) == 42;
    assert TruncatedRem(4, 3) == 1;
    assert s[4..][1..] == s[5..];
    assert StridePad(4, 3) == 2;
    assert s[4..][2..] == s[6..];
  }

  // ---------------------------------------------------------------------
  // Peeking at a structure

  /** `PeekStructure` as its comment describes it: the structure at the
      current position, with the slide left where it was. */
  function PeekStructureRestoring<T>(s: Bytes, deserialize: Deserializer<T>): (r: Step<T>)
    ensures r.rest == s
    ensures r.Done? <==> deserialize(s).Done?
    ensures r.Done? ==> r.value == deserialize(s).value.0
    ensures r.Thrown? ==> r.error == deserialize(s).error
  {
    match deserialize(s)
    case Done((structure, _), _) => Done(structure, s)
    case Thrown(e, _) => Thrown(e, s)
  }

  /** Reads one byte and declares no size. */
  function ConsumeOneByte(t: Bytes): Step<(int, int32)> {
    if |t| >= 1 then Done((t[0], 0), t[1..]) else Thrown(SlideTooShort, t)
  }

  /** `PeekStructure` moves the slide past what Deserialize read; the
      restoring peek does not, and both return the same structure. */
  lemma PeekStructureAdvances()
    ensures PeekStructure([7], ConsumeOneByte) == Done(7, [])
    ensures PeekStructureRestoring([7], ConsumeOneByte) == Done(7, [7])
  {
    var s: Bytes := [7];
    assert s[1..] == [];
  }

  // ---------------------------------------------------------------------
  // Skipping before a field

  /** A field read preceded by a gap of `n` bytes, as the code generator
      emits it: `slide.Skip(n).GetX()`. The getter runs on the copy `Skip`
      returns, so the receiver ends just after the gap, before the field. */
  function SkipThenGetOnCopy(s: Bytes, n: int32, k: IntReader): (r: Step<int>)
    ensures r.Done? <==> 0 <= n && n + k.Width() <= |s|
    ensures r.Done? ==> r.rest == s[n..] && k.InRange(r.value) && Encode(r.value, k) == s[n..n + k.Width()]
    ensures r.Thrown? && 0 <= n <= |s| ==> r == Thrown(SlideTooShort, s[n..])
    ensures r.Thrown? && !(0 <= n <= |s|) ==> r == Thrown(RangeOutOfBounds, s)
  {
    var (copy, receiver) :- Skip(s, n);
    match GetInteger(copy, k)
    case Done(v, _) => Done(v, receiver)
    case Thrown(e, _) => Thrown(e, receiver)
  }

  /** The same field read as its attribute describes it: skip `n` bytes,
      then read the field, with the receiver ending after the field. */
  function SkipThenGetOnReceiver(s: Bytes, n: int32, k: IntReader): (r: Step<int>)
    ensures r.Done? <==> 0 <= n && n + k.Width() <= |s|
    ensures r.Done? ==> r.rest == s[n + k.Width()..] && k.InRange(r.value) && Encode(r.value, k) == s[n..n + k.Width()]
    ensures r.Thrown? && 0 <= n <= |s| ==> r == Thrown(SlideTooShort, s[n..])
    ensures r.Thrown? && !(0 <= n <= |s|) ==> r == Thrown(RangeOutOfBounds, s)
  {
    var (_, receiver) :- Skip(s, n);
    assert receiver == s[n..];
    GetInteger(receiver, k)
  }

  /** The two read the same value and differ only in where the receiver
      ends: the copy version leaves the field's own bytes unread. */
  lemma SkipOnCopyLeavesField(s: Bytes, n: int32, k: IntReader)
    requires 0 <= n && n + k.Width() <= |s|
    ensures SkipThenGetOnCopy(s, n, k).value == SkipThenGetOnReceiver(s, n, k).value
    ensures SkipThenGetOnCopy(s, n, k).rest == s[n..n + k.Width()] + SkipThenGetOnReceiver(s, n, k).rest
  {
    EncodeInterpret(s[n..n + k.Width()], k);
    assert s[n..] == s[n..n + k.Width()] + s[n + k.Width()..];
  }

  /** The layout `byte A; [Skip = 1] byte B; byte C;` decoded field by field,
      with `skipThenGet` reading the field that has a gap before it. */
  function DecodeGapLayout(s: Bytes, skipThenGet: (Bytes, int32, IntReader) -> Step<int>): Step<(int, int, int)> {
    var (a, s1) :- GetInteger(s, Byte);
    var (b, s2) :- skipThenGet(s1, 1, Byte);
    var (c, s3) :- GetInteger(s2, Byte);
    Done((a, b, c), s3)
  }

  /** On 0A 0B 0C 0D the generated reads give C the byte B already read; the
      intended reads give C the byte after it. */
  lemma SkipReadsFieldTwice()
    ensures DecodeGapLayout([0x0A, 0x0B, 0x0C, 0x0D], SkipThenGetOnCopy) == Done((0x0A, 0x0C, 0x0C), [0x0D])
    ensures DecodeGapLayout([0x0A, 0x0B, 0x0C, 0x0D], SkipThenGetOnReceiver) == Done((0x0A, 0x0C, 0x0D), [])
  {
    var s: Bytes := [0x0A, 0x0B, 0x0C, 0x0D];
    assert s[1..] == [0x0B, 0x0C, 0x0D];
    assert s[1..][1..] == [0x0C, 0x0D];
    assert s[1..][1..][1..] == [0x0D];
    assert s[1..][1..][1..][1..] == [];
    var t: Bytes := [0x0C, 0x0D];
    assert t[..1] == [0x0C] && t[1..] == [0x0D];
    assert Endian.LittleEndianValue([0x0C]) == 0x0C;
    assert Endian.LittleEndianValue([0x0D]) == 0x0D;
    assert Endian.LittleEndianValue([0x0A]) == 0x0A;
  }
}

=== FILE: int32.dfy ===
/** The C# `int` type and its remainder operator, which the alignment
    arithmetic of a slide relies on. */
module Int32 {
  import opened Bytes

  const MinValue: int := -0x8000_0000
  const MaxValue: int := 0x7FFF_FFFF

  /** The arguments and results the slide's API types as `int`. */
  type int32 = x: int | MinValue <= x <= MaxValue

  function Abs(x: int): nat {
    if x < 0 then -x else x
  }

  /** C#'s `a / b` on integers: the quotient rounded toward zero. */
  function TruncatedDiv(a: int, b: int): int
    requires b != 0
  {
    if a >= 0 then
      if b > 0 then a / b else -(a / -b)
    else
      if b > 0 then -((-a) / b) else (-a) / (-b)
  }

  /** C#'s `a % b` on integers, defined by the language as `a - (a / b) * b`
      with the truncating quotient: the remainder is smaller than the divisor
      in magnitude and has the sign of the dividend. (Dafny's own `%` is
      Euclidean and never negative.) */
  function TruncatedRem(a: int, b: int): (r: int)
    requires b != 0
    ensures a == TruncatedDiv(a, b) * b + r
    ensures Abs(r) < Abs(b)
    ensures a >= 0 ==> r >= 0
    ensures a <= 0 ==> r <= 0
  {
    if a >= 0 then a % Abs(b) else -((-a) % Abs(b))
  }

  /** `a % b` evaluated on 32-bit operands, with the exceptions .NET raises:
      a zero divisor, and the one quotient that does not fit in an `int`. */
  function Remainder(a: int32, b: int32): (r: Result<int32>)
    ensures b == 0 <==> r == Err(DivideByZero)
    ensures a == MinValue && b == -1 <==> r == Err(ArithmeticOverflow)
    ensures r.Ok? <==> b != 0 && !(a == MinValue && b == -1)
    ensures r.Ok? ==> r.value == TruncatedRem(a, b)
  {
    if b == 0 then Err(DivideByZero)
    else if a == MinValue && b == -1 then Err(ArithmeticOverflow)
    else Ok(TruncatedRem(a, b))
  }
}

=== FILE: license_text.dfy ===
/** `LicenseText`: a length-prefixed UTF-8 record. A signed 16-bit
    little-endian `Length` is followed by `Length` bytes of text, and the
    structure declares no size. */
module LicenseText {
  import opened Bytes
  import opened Int32
  import opened ByteSlide

  datatype License = License(length: int, text: Text)

  /** The signed 16-bit number whose little-endian bytes are `lo`, `hi`. */
  function SignedLittleEndian16(lo: byte, hi: byte): (v: int)
    ensures -0x8000 <= v < 0x8000
  {
    if hi < 0x80 then lo + 0x100 * hi else lo + 0x100 * hi - 0x1_0000
  }

  /** `Deserialize(ref slide)`: reads the 2-byte prefix, then exactly that
      many bytes as UTF-8, and returns 0. A prefix longer than what remains
      throws ByteSlideException; a negative prefix (top bit set) passes
      Slide's check and throws the span's range exception instead. Either
      way the prefix has already been consumed. */
  function Deserialize(s: Bytes): (r: Step<(License, int32)>)
    ensures |s| < 2 ==> r == Thrown(SlideTooShort, s)
    ensures |s| >= 2 ==>
              var n := SignedLittleEndian16(s[0], s[1]);
              && (r.Done? <==> 0 <= n <= |s| - 2)
              && (r.Done? ==> r.value == (License(n, Decoded(Utf8, s[2..2 + n])), 0) && r.rest == s[2 + n..])
              && (n > |s| - 2 ==> r == Thrown(SlideTooShort, s[2..]))
              && (n < 0 ==> r == Thrown(RangeOutOfBounds, s[2..]))
  {
    Int16Prefix(s);
    var (length, rest) :- GetInteger(s, Int16LittleEndian);
    assert rest == s[2..];
    var (text, rest') :- GetUtf8String(rest, length as int32);
    assert text.bytes == s[2..][..length] == s[2..2 + length];
    Done((License(length, text), 0), rest')
  }

  /** The `Int16LittleEndian` getter reads the first two bytes as
      `SignedLittleEndian16`. */
  lemma Int16Prefix(s: Bytes)
    ensures |s| >= 2 ==>
              GetInteger(s, Int16LittleEndian) == Done(SignedLittleEndian16(s[0], s[1]), s[2..])
  {
    if |s| >= 2 {
      var bs := s[..2];
      assert bs[1..][1..] == [];
      assert Endian.LittleEndianValue(bs) == s[0] as int + 0x100 * s[1] as int;
    }
  }

  /** Through `GetStructure` the record consumes exactly its prefix and its
      text, with no extra skip. */
  lemma GetStructureConsumesPrefixAndText(s: Bytes)
    ensures GetStructure(s, Deserialize) == PeekStructure(s, Deserialize)
    ensures GetStructure(s, Deserialize).Done? ==>
              |s| - |GetStructure(s, Deserialize).rest| == 2 + SignedLittleEndian16(s[0], s[1])
  {
  }

  /** The test buffer: the prefix 7E 00, then the text, 16 bytes a line. */
  const LicenseBuffer: Bytes :=
    [0x7E, 0x00, 0x4D, 0x49, 0x54, 0x20, 0x4C, 0x69, 0x63, 0x65, 0x6E, 0x73, 0x65, 0x0D, 0x0A, 0x0D]
    + [0x0A, 0x43, 0x6F, 0x70, 0x79, 0x72, 0x69, 0x67, 0x68, 0x74, 0x20, 0x28, 0x63, 0x29, 0x20, 0x32]
    + [0x30, 0x32, 0x33, 0x20, 0x4D, 0x61, 0x74, 0x74, 0x20, 0x4A, 0x61, 0x6E, 0x64, 0x61, 0x0D, 0x0A]
    + [0x0D, 0x0A, 0x50, 0x65, 0x72, 0x6D, 0x69, 0x73, 0x73, 0x69, 0x6F, 0x6E, 0x20, 0x69, 0x73, 0x20]
    + [0x68, 0x65, 0x72, 0x65, 0x62, 0x79, 0x20, 0x67, 0x72, 0x61, 0x6E, 0x74, 0x65, 0x64, 0x2C, 0x20]
    + [0x66, 0x72, 0x65, 0x65, 0x20, 0x6F, 0x66, 0x20, 0x63, 0x68, 0x61, 0x72, 0x67, 0x65, 0x2C, 0x20]
    + [0x74, 0x6F, 0x20, 0x61, 0x6E, 0x79, 0x20, 0x70, 0x65, 0x72, 0x73, 0x6F, 0x6E, 0x20, 0x6F, 0x62]
    + [0x74, 0x61, 0x69, 0x6E, 0x69, 0x6E, 0x67, 0x20, 0x61, 0x20, 0x63, 0x6F, 0x70, 0x79, 0x0D, 0x0A]

  /** The 128-byte test buffer decodes to Length 126 and to the 126 UTF-8
      bytes after the prefix (the opening lines of the MIT licence),
      consuming the whole buffer. */
  lemma LicenseVector()
    ensures GetStructure(LicenseBuffer, Deserialize)
              == Done(License(126, Decoded(Utf8, LicenseBuffer[2..])), [])
  {
    var s := LicenseBuffer;
    assert |s| == 128;
    assert s[0] == 0x7E && s[1] == 0;
    assert SignedLittleEndian16(s[0], s[1]) == 126;
    assert s[2..2 + 126] == s[2..];
    assert s[2 + 126..] == [];
  }
}

=== FILE: master_boot_record.dfy ===
/** `MasterBootRecord`: 446 bytes of boot code, four nested partition
    entries read through `GetStructure`, then a 16-bit little-endian boot
    signature; the record declares no size. */
module MasterBootRecord {
  import opened Bytes
  import opened Int32
  import opened ByteSlide
  import Endian

  datatype MasterBootRecord<E> =
    MasterBootRecord(bootCode: Bytes, partitionEntries: seq<E>, bootSignature: int)

  const BootCodeSize: int32 := 446
  const EntryCount: nat := 4

  /** `slide.GetStructure<E>()` as a reader of the slide. */
  function StructureReader<E>(entry: Deserializer<E>): Bytes -> Step<E> {
    t => GetStructure(t, entry)
  }

  /** The loop `for (i = 0; i < count; i++) entries[i] = read()`: each
      entry starts where the previous one left the slide, and the first
      exception ends the loop. */
  function GetEntries<E>(s: Bytes, read: Bytes -> Step<E>, count: nat): (r: Step<seq<E>>)
    ensures r.Done? ==> |r.value| == count
    ensures count > 0 && read(s).Thrown? ==> r == Thrown(read(s).error, read(s).rest)
    ensures count > 0 && r.Done? ==> read(s).Done? && r.value[0] == read(s).value
    decreases count
  {
    if count == 0 then Done([], s)
    else
      var (first, rest) :- read(s);
      var (others, rest') :- GetEntries(rest, read, count - 1);
      Done([first] + others, rest')
  }

  /** `Deserialize(ref slide)`: boot code, the four entries, the signature,
      and 0 as the declared size. Any exception aborts the whole record. */
  function Deserialize<E>(s: Bytes, entry: Deserializer<E>): (r: Step<(MasterBootRecord<E>, int32)>)
    ensures |s| < 446 ==> r == Thrown(SlideTooShort, s)
    ensures |s| >= 446 ==>
              var entries := GetEntries(s[446..], StructureReader(entry), EntryCount);
              && (entries.Thrown? ==> r == Thrown(entries.error, entries.rest))
              && (entries.Done? && |entries.rest| < 2 ==> r == Thrown(SlideTooShort, entries.rest))
              && (entries.Done? && |entries.rest| >= 2 ==>
                    r == Done((MasterBootRecord(s[..446], entries.value,
                                                entries.rest[0] as int + 0x100 * entries.rest[1] as int), 0),
                              entries.rest[2..]))
  {
    var (bootCode, afterBoot) :- GetByteArray(s, BootCodeSize);
    var (entries, afterEntries) :- GetEntries(afterBoot, StructureReader(entry), EntryCount);
    UInt16Prefix(afterEntries);
    var (bootSignature, rest) :- GetInteger(afterEntries, UInt16LittleEndian);
    Done((MasterBootRecord(bootCode, entries, bootSignature), 0), rest)
  }

  /** The `UInt16LittleEndian` getter reads the first two bytes low byte first. */
  lemma UInt16Prefix(t: Bytes)
    ensures |t| >= 2 ==> GetInteger(t, UInt16LittleEndian) == Done(t[0] as int + 0x100 * t[1] as int, t[2..])
    ensures |t| < 2 ==> GetInteger(t, UInt16LittleEndian) == Thrown(SlideTooShort, t)
  {
    if |t| >= 2 {
      var bs := t[..2];
      assert bs[1..][1..] == [];
      assert Endian.LittleEndianValue(bs) == t[0] as int + 0x100 * t[1] as int;
    }
  }

  /** The `Byte` getter reads the first byte. */
  lemma ByteAt(t: Bytes)
    ensures |t| >= 1 ==> GetInteger(t, Byte) == Done(t[0] as int, t[1..])
    ensures |t| < 1 ==> GetInteger(t, Byte) == Thrown(SlideTooShort, t)
  {
    if |t| >= 1 {
      assert t[..1][1..] == [];
    }
  }

  /** The `UInt32LittleEndian` getter reads the first four bytes low byte
      first. */
  lemma UInt32At(t: Bytes)
    ensures |t| >= 4 ==> GetInteger(t, UInt32LittleEndian) == Done(Endian.LittleEndianValue(t[..4]), t[4..])
    ensures |t| < 4 ==> GetInteger(t, UInt32LittleEndian) == Thrown(SlideTooShort, t)
  {
  }

  // ---------------------------------------------------------------------
  // The partition entry layout

  /** A partition table entry as its class declares it: boot indicator,
      starting CHS (3 bytes), partition type, ending CHS (3 bytes), starting
      LBA and size in sectors (both unsigned 32-bit). */
  datatype PartitionEntry = PartitionEntry(
    bootIndicator: int, startingChs: Bytes, partitionType: int,
    endingChs: Bytes, startingLba: int, sizeInLba: int)

  /** The reads the declared fields of a partition entry call for, in order
      and little-endian, returning 0 because the class declares no size. */
  function DeserializePartitionEntry(s: Bytes): (r: Step<(PartitionEntry, int32)>)
    ensures r.Done? <==> |s| >= 16
    ensures r.Done? ==>
              && r.rest == s[16..]
              && r.value == (PartitionEntry(s[0], s[1..4], s[4], s[5..8],
                                            Endian.LittleEndianValue(s[8..12]),
                                            Endian.LittleEndianValue(s[12..16])), 0)
    ensures r.Thrown? ==> r.error == SlideTooShort
  {
    ByteAt(s);
    var (bootIndicator, s1) :- GetInteger(s, Byte);
    var (startingChs, s2) :- GetByteArray(s1, 3);
    ByteAt(s2);
    var (partitionType, s3) :- GetInteger(s2, Byte);
    var (endingChs, s4) :- GetByteArray(s3, 3);
    UInt32At(s4);
    var (startingLba, s5) :- GetInteger(s4, UInt32LittleEndian);
    UInt32At(s5);
    var (sizeInLba, s6) :- GetInteger(s5, UInt32LittleEndian);
    assert s[1..][..3] == s[1..4] && s[1..][3..] == s[4..];
    assert s[4..][1..] == s[5..];
    assert s[5..][..3] == s[5..8] && s[5..][3..] == s[8..];
    assert s[8..][..4] == s[8..12] && s[8..][4..] == s[12..];
    assert s[12..][..4] == s[12..16] && s[12..][4..] == s[16..];
    Done((PartitionEntry(bootIndicator, startingChs, partitionType, endingChs, startingLba, sizeInLba), 0), s6)
  }

  /** `GetStructure` over the partition entry layout consumes exactly 16
      bytes, since the entry declares no size, or throws ByteSlideException. */
  lemma StructureOfPartitionEntry(t: Bytes)
    ensures GetStructure(t, DeserializePartitionEntry).Done? <==> |t| >= 16
    ensures GetStructure(t, DeserializePartitionEntry).Done? ==>
              |t| >= 16 && GetStructure(t, DeserializePartitionEntry).rest == t[16..]
    ensures GetStructure(t, DeserializePartitionEntry).Thrown? ==>
              GetStructure(t, DeserializePartitionEntry).error == SlideTooShort
  {
    var d := DeserializePartitionEntry(t);
    assert d.Done? ==> d.value.1 == 0;
  }

  /** The value `GetStructure` returns for a partition entry is the entry
      its Deserialize decodes. */
  lemma EntryValueOfPartitionEntry(t: Bytes)
    requires |t| >= 16
    ensures GetStructure(t, DeserializePartitionEntry).Done? && DeserializePartitionEntry(t).Done?
    ensures GetStructure(t, DeserializePartitionEntry).value == DeserializePartitionEntry(t).value.0
  {
    StructureOfPartitionEntry(t);
  }

  /** One turn of the loop: the first entry, then the remaining ones read
      from where it left the slide. */
  lemma EntriesStep<E>(s: Bytes, read: Bytes -> Step<E>, count: nat)
    requires count > 0 && read(s).Done?
    ensures var t := GetEntries(read(s).rest, read, count - 1);
            GetEntries(s, read, count) ==
              if t.Done? then Done([read(s).value] + t.value, t.rest) else Thrown(t.error, t.rest)
  {
  }

  /** A reader that consumes exactly 16 bytes, the size of a partition
      entry, when they are there and throws ByteSlideException otherwise. */
  ghost predicate ReadsSixteen<E>(read: Bytes -> Step<E>) {
    forall t: Bytes ::
      && (read(t).Done? <==> |t| >= 16)
      && (read(t).Done? ==> |t| >= 16 && read(t).rest == t[16..])
      && (read(t).Thrown? ==> read(t).error == SlideTooShort)
  }

  lemma PartitionEntryReadsSixteen()
    ensures ReadsSixteen(StructureReader(DeserializePartitionEntry))
  {
    forall t: Bytes
      ensures && (GetStructure(t, DeserializePartitionEntry).Done? <==> |t| >= 16)
              && (GetStructure(t, DeserializePartitionEntry).Done? ==>
                    |t| >= 16 && GetStructure(t, DeserializePartitionEntry).rest == t[16..])
              && (GetStructure(t, DeserializePartitionEntry).Thrown? ==>
                    GetStructure(t, DeserializePartitionEntry).error == SlideTooShort)
    {
      StructureOfPartitionEntry(t);
    }
  }

  /** `count` entries of such a reader occupy `16 * count` consecutive
      bytes; with fewer bytes the loop throws ByteSlideException. */
  lemma {:induction false} EntriesOfSixteen<E>(s: Bytes, read: Bytes -> Step<E>, count: nat)
    requires ReadsSixteen(read)
    ensures GetEntries(s, read, count).Done? <==> |s| >= 16 * count
    ensures GetEntries(s, read, count).Done? ==> |s| >= 16 * count && GetEntries(s, read, count).rest == s[16 * count..]
    ensures GetEntries(s, read, count).Thrown? ==> GetEntries(s, read, count).error == SlideTooShort
    decreases count
  {
    if count > 0 && |s| >= 16 {
      var tail := s[16..];
      EntriesStep(s, read, count);
      EntriesOfSixteen(tail, read, count - 1);
      if |s| >= 16 * count {
        assert tail[16 * (count - 1)..] == s[16 * count..];
      }
    }
  }

  /** Entry `i` of such a loop is what the reader reads at offset `16 * i`. */
  lemma {:induction false} EntryValuesOfSixteen<E>(s: Bytes, read: Bytes -> Step<E>, count: nat)
    requires ReadsSixteen(read)
    ensures GetEntries(s, read, count).Done? ==>
              && |s| >= 16 * count
              && forall i :: 0 <= i < count ==>
                   read(s[16 * i..]).Done? && GetEntries(s, read, count).value[i] == read(s[16 * i..]).value
    decreases count
  {
    var whole := GetEntries(s, read, count);
    if count > 0 && whole.Done? {
      var tail := s[16..];
      EntriesOfSixteen(s, read, count);
      EntriesStep(s, read, count);
      EntryValuesOfSixteen(tail, read, count - 1);
      forall i | 0 <= i < count
        ensures read(s[16 * i..]).Done? && whole.value[i] == read(s[16 * i..]).value
      {
        if i > 0 {
          assert tail[16 * (i - 1)..] == s[16 * i..];
        }
      }
    }
  }

  /** The four entries read from offset 446 end at offset 510, entry `i`
      being what the reader reads at offset `446 + 16 * i`; with fewer bytes
      the loop throws ByteSlideException. */
  ghost predicate EntriesFrom446To510<E>(s: Bytes, read: Bytes -> Step<E>) {
    |s| >= 446 ==>
      var es := GetEntries(s[446..], read, 4);
      && (es.Done? <==> |s| >= 510)
      && (es.Done? ==>
            && |s| >= 510
            && es.rest == s[510..]
            && forall i :: 0 <= i < 4 ==>
                 read(s[446 + 16 * i..]).Done? && es.value[i] == read(s[446 + 16 * i..]).value)
      && (es.Thrown? ==> es.error == SlideTooShort)
  }

  lemma SixteenByteEntriesFrom446<E>(s: Bytes, read: Bytes -> Step<E>)
    requires ReadsSixteen(read)
    ensures EntriesFrom446To510(s, read)
  {
    if |s| >= 446 {
      var tail := s[446..];
      var es := GetEntries(tail, read, 4);
      assert && (es.Done? <==> |tail| >= 64)
             && (es.Done? ==> |tail| >= 64 && es.rest == tail[64..])
             && (es.Thrown? ==> es.error == SlideTooShort)
      by {
        EntriesOfSixteen(tail, read, 4);
      }
      if es.Done? {
        assert tail[64..] == s[510..];
        assert forall i :: 0 <= i < 4 ==> read(tail[16 * i..]).Done? && es.value[i] == read(tail[16 * i..]).value
        by {
          EntryValuesOfSixteen(tail, read, 4);
        }
        forall i | 0 <= i < 4
          ensures read(s[446 + 16 * i..]).Done? && es.value[i] == read(s[446 + 16 * i..]).value
        {
          assert tail[16 * i..] == s[446 + 16 * i..];
        }
      }
    }
  }

  /** A record whose entries end at offset 510 is exactly 512 bytes: the
      boot code, the entries, and the signature in bytes 510 and 511, low
      byte first. Anything shorter throws ByteSlideException. */
  lemma RecordOfSixteenByteEntries<E>(s: Bytes, entry: Deserializer<E>)
    requires EntriesFrom446To510(s, StructureReader(entry))
    ensures Deserialize(s, entry).Done? <==> |s| >= 512
    ensures Deserialize(s, entry).Done? ==>
              var r := Deserialize(s, entry);
              && |s| >= 512
              && r.rest == s[512..]
              && r.value.0.bootCode == s[..446]
              && |r.value.0.partitionEntries| == 4
              && r.value.0.bootSignature == s[510] as int + 0x100 * s[511] as int
    ensures Deserialize(s, entry).Thrown? ==> Deserialize(s, entry).error == SlideTooShort
  {
  }

  /** Entry `i` of such a record is the structure read at offset
      `446 + 16 * i`. */
  lemma EntriesOfSixteenByteRecord<E>(s: Bytes, entry: Deserializer<E>)
    requires EntriesFrom446To510(s, StructureReader(entry))
    ensures Deserialize(s, entry).Done? ==>
              && |s| >= 512
              && |Deserialize(s, entry).value.0.partitionEntries| == 4
              && forall i :: 0 <= i < 4 ==>
                   && GetStructure(s[446 + 16 * i..], entry).Done?
                   && Deserialize(s, entry).value.0.partitionEntries[i] == GetStructure(s[446 + 16 * i..], entry).value
  {
  }

  lemma PartitionEntriesFrom446(s: Bytes)
    ensures EntriesFrom446To510(s, StructureReader(DeserializePartitionEntry))
  {
    PartitionEntryReadsSixteen();
    SixteenByteEntriesFrom446(s, StructureReader(DeserializePartitionEntry));
  }

  /** With the declared partition entry layout a master boot record is
      exactly 512 bytes: the boot code, four 16-byte entries from offset
      446, and the signature in bytes 510 and 511. Anything shorter throws
      ByteSlideException. */
  lemma RecordOfPartitionEntries(s: Bytes)
    ensures Deserialize(s, DeserializePartitionEntry).Done? <==> |s| >= 512
    ensures Deserialize(s, DeserializePartitionEntry).Done? ==>
              var r := Deserialize(s, DeserializePartitionEntry);
              && |s| >= 512
              && r.rest == s[512..]
              && r.value.0.bootCode == s[..446]
              && |r.value.0.partitionEntries| == 4
              && (forall i :: 0 <= i < 4 ==>
                    && GetStructure(s[446 + 16 * i..], DeserializePartitionEntry).Done?
                    && r.value.0.partitionEntries[i] == GetStructure(s[446 + 16 * i..], DeserializePartitionEntry).value)
              && r.value.0.bootSignature == s[510] as int + 0x100 * s[511] as int
    ensures Deserialize(s, DeserializePartitionEntry).Thrown? ==>
              Deserialize(s, DeserializePartitionEntry).error == SlideTooShort
  {
    PartitionEntriesFrom446(s);
    RecordOfSixteenByteEntries(s, DeserializePartitionEntry);
    EntriesOfSixteenByteRecord(s, DeserializePartitionEntry);
  }
}
